=== FILE: README.md ===
# meaningDiscovery in Dafny

A model of `discover` from `meaningDiscovery.js`. It is a bounded upward search.
It starts from a counter: the argument, or 0 when the argument is omitted or falsy.
At each step it compares the counter with the value of the `meaningOfLife` accessor.
On a match it resolves with the counter.
If there is no match and the counter is above 100, it resolves with a fresh read of the accessor.
Otherwise it waits 25 time units and continues from the counter plus one.

The model has two modules:

- `MeaningDiscovery` (`meaning_discovery.dfy`) holds the data model and the search.
  - `Value` is what the accessor returns: `Num(n)`, or `Other(text)` for a non-numeric value such as the test's string sentinel. In the model an `Other` value never equals an integer counter; the coercions for which that is not true in JavaScript are listed under "## Left out".
  - `LooselyEquals` is the `==` of line 8 between the integer counter and the value read. It is a definition with no contract of its own.
  - `Arg` is the argument of `discover`: omitted, or an integer.
  - `Source` models the accessor as a function from the index of a read to the value that read returns. The accessor is looked up anew at every step, so a constant that is replaced during a search is covered. `Constant(c)` is the accessor of an unreplaced module.
  - `Search` is the recursion itself, and `SearchCharacterised` states what it computes. Its `Outcome` records the value it resolves with, the counter at which it stopped, the number of 25-unit delays it took and the number of reads it made.
  - `Discover` is `discover(arg)`. `ElapsedTime` is the total of its delays.
- `DiscoveryProperties` (`discovery_properties.dfy`) holds the lemmas about the search.

The promise chain is modelled as a sequence of counted steps: one delay per step that goes on.
The search terminates because `Search` decreases on `101 - x` while `x <= 100`.
The counter is an unbounded integer; see "## Left out" for what that means for very large negative starts.

The constant need not be a number.
The code compares and returns any value, and the tests replace the constant with a string.
So `Value` has a non-numeric case.

## Model

| member | source | states |
|---|---|---|
| `MeaningDiscovery.Start` | meaningDiscovery.js:7 | An omitted or falsy argument becomes 0: the counter starts at 0 exactly when the argument is omitted or 0. That any other argument is the start is stated by `DiscoveryProperties.MatchAtStart`, and the consequence for the whole search by `DiscoveryProperties.OmittedStartsAtZero`. |
| `MeaningDiscovery.Search` | meaningDiscovery.js:8-16 | The recursion of `discover` after its start is fixed. Its own contract states that every delay advances the counter by exactly one. Its full behaviour is stated by `MeaningDiscovery.SearchCharacterised`. |
| `MeaningDiscovery.Discover` | meaningDiscovery.js:6-19 | `discover(arg)`: the search from `Start(arg)` before any read is made. It ends at the start counter plus the number of delays it took. |
| `MeaningDiscovery.SearchCharacterised` | meaningDiscovery.js:6-19 | The outcome is completely characterised. Each delay adds one to the counter. Every step before the last had a counter of at most 100 that did not equal the value read at that step. The search stops at once exactly when the start equals the first read or is above 100. A stop on a match resolves with the counter after one read at that step. Any other stop is above the cap and resolves with a second, fresh read. |
| `DiscoveryProperties.OmittedStartsAtZero` | meaningDiscovery.js:7 | `discover()` behaves exactly as `discover(0)`. |
| `DiscoveryProperties.MatchAtStart` | meaningDiscovery.js:8-9 | A start equal to the first read resolves with the start itself. No delay is taken and one read is made. |
| `DiscoveryProperties.CapAtStart` | meaningDiscovery.js:8-13 | Suppose the start is above 100 and does not equal the first read. Then the search resolves at once with the second read, after no delay. The equality test comes before the cap test. |
| `DiscoveryProperties.CounterBound` | meaningDiscovery.js:12-16 | The final counter lies between the start and the larger of the start and 101. A search takes at most `101 - start` delays, and none when it starts above 100. |
| `DiscoveryProperties.SearchSplits` | meaningDiscovery.js:15-16 | Take a search whose first `k` steps go on. It is those `k` delays followed by the search from counter `start + k` after `k` more reads. |
| `DiscoveryProperties.OnlyReadsMatter` | meaningDiscovery.js:8-16 | The outcome depends only on the values of the reads the search makes. Two accessors that agree on those reads give the same outcome. |
| `DiscoveryProperties.ReplacementTakesEffect` | meaningDiscovery.js:8-16 | Replace the accessor after `k` steps that went on. The very next comparison uses the new accessor. The search then continues exactly as a search under the new accessor from counter `start + k`. |
| `DiscoveryProperties.ResultIsLastRead` | meaningDiscovery.js:8-13 | At least one read is made. The value the search resolves with is the value of the last read it made. On a match that value is the counter itself. |
| `DiscoveryProperties.ConstantIsFound` | meaningDiscovery.js:8-16 | For an accessor that always returns `c`, every start value resolves with `c`. This holds for numeric and non-numeric `c` alike. |
| `DiscoveryProperties.ReachableConstant` | meaningDiscovery.js:8-16 | Suppose `start <= n <= 101`. The constant `n` is found after exactly `n - start` delays and `n - start + 1` reads. |
| `DiscoveryProperties.UnreachableConstant` | meaningDiscovery.js:12-16 | Suppose the start is at most 100 and the constant is not a number in `start..101`. The search runs to counter 101, taking `101 - start` delays, and resolves with the constant. |
| `DiscoveryProperties.DefaultDiscovery` | test/meaningOfLife.js:15-24 | With the constant 42, `discover()` resolves with 42 after 42 delays, which is 1050 time units. `discover(42)` resolves with 42 with no delay. |
| `DiscoveryProperties.FakeClockSuffices` | test/meaningOfLife.js:93-103 | `discover()` of 42 resolves with 42 after 42 delays (1050 time units). That is within the 100 advances of 1000 units the test makes, both in the number of delays and in total time. |
| `DiscoveryProperties.SentinelRunsToCap` | test/meaningOfLife.js:48-54 | A non-numeric constant is never matched. `discover()` runs to counter 101, taking 101 delays (2525 time units, under the 5000-unit timeout), and resolves with that constant. |

## Left out

- Promises and `Promise.delay(25)`: asynchronous scheduling and real timers are not modelled. Each delay is one counted step of 25 time units.
- Loose-equality coercion beyond the number/non-number split is not modelled. For example, a numeric string such as `"42"` equals `42` under JavaScript `==`, but the model treats every non-numeric value as `Other`, which never matches. The same holds for booleans and for empty or blank strings: `true == 1`, `false == 0`, `"" == 0` and `" " == 0` in JavaScript, but the model's `Other` values never equal a counter. Constants that are numbers but not integers (`42.5`, `NaN`, `Infinity`), and `null` or `undefined`, have no case of their own. They never equal an integer counter and are returned at the cap, which is the behaviour of `Other`, so the model represents them by an `Other` value.
- Non-integer start values are not modelled. These include fractions and strings, and a string start would make `x+1` concatenate. Falsy starts (`undefined`, `null`, `false`, `""`, `NaN`, `0`) are all represented by `Omitted` or `Given(0)`, which behave the same.
- FakeClockSuffices: does not state that the fake-clock run finishes. That depends on whether the synchronous loop of `clock.tick(1000)` calls lets the promise continuations run between ticks, which is promise and timer scheduling. The lemma states only the result, the delay count and the total time.
- The counter is modelled as an unbounded integer, not an IEEE double. Below -2^53, and for other integers a double cannot hold exactly, the source's `x+1` can round back to `x`. For example, -9007199254740996 + 1 rounds to -9007199254740996. The source's search then never advances and never resolves, while the model's search always stops.
- Errors thrown by the accessor are not modelled: `Source` is total. An error thrown by a read in the caller's own call of `discover` (line 8, or line 13 for a start above 100) propagates synchronously out of `discover`, and no promise is returned. An error thrown by a read after a delay rejects the returned promise.
- Module loading and binding are not modelled. `module.exports.meaningOfLife` is captured when the module is required. The model takes as given the sequence of values the accessor returns (`Source`), not which reassignment would reach it.
- `meaningOfLife.js` is not part of this model. Its default constant, 42, is taken from the test's expectations.
- The test suite's mocking, spying, stubbing and module-cache machinery is not modelled. The block that combines Sinon and Mockery is not used as evidence, because its `it` is nested inside a `before` hook.

=== FILE: discovery_properties.dfy ===
/**
 What `discover` promises: how it treats its start value, the two ways it
 stops at once, the bound on its counter and its delays, the result it
 resolves with for a fixed constant and for a changing one, and the
 scenarios the repository's tests exercise.
 */
module DiscoveryProperties {
  import opened MeaningDiscovery

  /** An omitted start value counts from 0, exactly as an explicit 0 does. */
  lemma OmittedStartsAtZero(source: Source)
    ensures Discover(Omitted, source) == Discover(Given(0), source)
    ensures Discover(Omitted, source).counter >= 0
  {
  }

  /** A start value equal to the first read resolves with the start value
      itself, without a delay and after that single read. */
  lemma MatchAtStart(x: int, source: Source)
    requires LooselyEquals(x, source(0))
    ensures Discover(Given(x), source) == Outcome(Num(x), x, 0, 1)
  {
  }

  /** A start value above the cap that does not equal the first read resolves
      at once with a second read of the accessor: the equality test comes
      before the cap test. */
  lemma CapAtStart(x: int, source: Source)
    requires x > Cap && !LooselyEquals(x, source(0))
    ensures Discover(Given(x), source) == Outcome(source(1), x, 0, 2)
  {
  }

  /** The counter of a search on unbounded integers never goes beyond the
      larger of its start and `Cap + 1`: every delay moves the counter up by
      one from a value that is at most the cap. */
  lemma CounterBound(x: int, source: Source, calls: nat)
    ensures var o := Search(x, source, calls);
            x <= o.counter <= (if x <= Cap then Cap + 1 else x) &&
            o.delays <= (if x <= Cap then Cap + 1 - x else 0)
  {
    var o := Search(x, source, calls);
    SearchCharacterised(x, source, calls);
    if o.delays > 0 {
      assert Passes(x, source, calls, o.delays - 1);
    }
  }

  /** A search whose first `k` steps go on is those `k` delays followed by
      the search from counter `x + k` after `calls + k` reads. */
  lemma {:induction false} SearchSplits(x: int, source: Source, calls: nat, k: nat)
    requires forall j :: 0 <= j < k ==> Passes(x, source, calls, j)
    ensures var o, rest := Search(x, source, calls), Search(x + k, source, calls + k);
            o == Outcome(rest.value, rest.counter, rest.delays + k, rest.calls)
    decreases k
  {
    if k > 0 {
      assert Passes(x, source, calls, 0);
      var o, next := Search(x, source, calls), Search(x + 1, source, calls + 1);
      assert o == Outcome(next.value, next.counter, next.delays + 1, next.calls);
      PassesUnshifted(x, x + 1, source, calls, calls + 1, k - 1);
      SearchSplits(x + 1, source, calls + 1, k - 1);
      var rest := Search(x + k, source, calls + k);
      assert next == Outcome(rest.value, rest.counter, rest.delays + (k - 1), rest.calls);
    }
  }

  /** The accessor is read afresh at every step, and nothing but those reads
      decides the outcome: two accessors that agree on the reads a search
      makes give the same outcome. */
  lemma {:induction false} OnlyReadsMatter(x: int, s1: Source, s2: Source, calls: nat)
    requires forall i :: calls <= i < Search(x, s1, calls).calls ==> s1(i) == s2(i)
    ensures Search(x, s1, calls) == Search(x, s2, calls)
    decreases if x <= Cap then Cap + 1 - x else 0
  {
    SearchCharacterised(x, s1, calls);
    assert s1(calls) == s2(calls);
    if !LooselyEquals(x, s1(calls)) {
      if x > Cap {
        assert s1(calls + 1) == s2(calls + 1);
      } else {
        OnlyReadsMatter(x + 1, s1, s2, calls + 1);
      }
    }
  }

  /** The accessor `before` for the first `k` reads, `after` from then on: a
      module whose constant is replaced while a discovery is under way. */
  function Replaced(before: Source, after: Source, k: nat): Source {
    (i: nat) => if i < k then before(i) else after(i)
  }

  /** The steps that went on under the old accessor go on under the replaced one. */
  lemma ReplacedPrefix(x: int, before: Source, after: Source, k: nat)
    requires forall j :: 0 <= j < k ==> Passes(x, before, 0, j)
    ensures forall j :: 0 <= j < k ==> Passes(x, Replaced(before, after, k), 0, j)
  {
    forall j | 0 <= j < k
      ensures Passes(x, Replaced(before, after, k), 0, j)
    {
      assert Passes(x, before, 0, j);
    }
  }

  /** From read `k` on, a search under the replaced accessor is a search under the new one. */
  lemma ReplacedTail(y: int, before: Source, after: Source, k: nat)
    ensures Search(y, Replaced(before, after, k), k) == Search(y, after, k)
  {
    var source := Replaced(before, after, k);
    forall i | k <= i < Search(y, source, k).calls
      ensures source(i) == after(i)
    {
    }
    OnlyReadsMatter(y, source, after, k);
  }

  /** Replacing the accessor while a search is still going on takes effect at
      the very next read: after `k` steps that went on under the old accessor,
      the search continues exactly as a search under the new one from counter
      `x + k`. */
  lemma {:induction false} ReplacementTakesEffect(x: int, before: Source, after: Source, k: nat)
    requires forall j :: 0 <= j < k ==> Passes(x, before, 0, j)
    ensures var o, rest := Discover(Given(x), Replaced(before, after, k)), Search(x + k, after, k);
            o == Outcome(rest.value, rest.counter, rest.delays + k, rest.calls)
  {
    ReplacedPrefix(x, before, after, k);
    SearchSplits(x, Replaced(before, after, k), 0, k);
    ReplacedTail(x + k, before, after, k);
  }

  /** Whatever the accessor returns over time, a discovery resolves with the
      value of the last read it made: on a match the counter, which is that
      value, and past the cap the fresh read itself. */
  lemma ResultIsLastRead(arg: Arg, source: Source)
    ensures var o := Discover(arg, source);
            o.calls >= 1 && o.value == source(o.calls - 1)
  {
    SearchCharacterised(Start(arg), source, 0);
  }

  /** For an accessor that always returns `c`, the discovery resolves with `c`
      whatever the start value, numeric constant or not. */
  lemma ConstantIsFound(arg: Arg, c: Value)
    ensures Discover(arg, Constant(c)).value == c
  {
    var o := Discover(arg, Constant(c));
    SearchCharacterised(Start(arg), Constant(c), 0);
    assert Constant(c)(o.delays) == c && Constant(c)(o.delays + 1) == c;
  }

  /** A constant that the count reaches (between the start and `Cap + 1`) is
      found after exactly as many delays as the distance to it. */
  lemma ReachableConstant(x: int, n: int)
    requires x <= n <= Cap + 1
    ensures Discover(Given(x), Constant(Num(n))) == Outcome(Num(n), n, n - x, n - x + 1)
  {
    var o := Discover(Given(x), Constant(Num(n)));
    SearchCharacterised(x, Constant(Num(n)), 0);
    assert Constant(Num(n))(o.delays) == Num(n);
    assert o.delays > n - x ==> Passes(x, Constant(Num(n)), 0, n - x);
  }

  /** A constant that the count cannot reach (below the start or above
      `Cap + 1`, or not a number at all) sends a search that starts within the
      cap to `Cap + 1`, after `Cap + 1 - x` delays, and it then resolves with
      the constant. */
  lemma UnreachableConstant(x: int, c: Value)
    requires x <= Cap
    requires !(c.Num? && x <= c.n <= Cap + 1)
    ensures Discover(Given(x), Constant(c)) == Outcome(c, Cap + 1, Cap + 1 - x, Cap + 1 - x + 2)
  {
    var o := Discover(Given(x), Constant(c));
    SearchCharacterised(x, Constant(c), 0);
    CounterBound(x, Constant(c), 0);
    assert Constant(c)(o.delays) == c && Constant(c)(o.delays + 1) == c;
  }

  /** The default module's constant is 42: `discover()` resolves with 42 after
      42 delays, 1050 time units in all, as does `discover(0)`; and
      `discover(42)` resolves with 42 at once, however often it is called. */
  lemma DefaultDiscovery()
    ensures Discover(Omitted, Constant(Num(42))) == Outcome(Num(42), 42, 42, 43)
    ensures ElapsedTime(Discover(Omitted, Constant(Num(42)))) == 1050
    ensures Discover(Given(42), Constant(Num(42))) == Outcome(Num(42), 42, 0, 1)
  {
    ReachableConstant(0, 42);
    ReachableConstant(42, 42);
  }

  /** Under fake timers advanced 100 times by 1000 time units, `discover()` of
      the default constant resolves with 42 after 42 delays (1050 time units):
      no more delays than there are advances, and no more time than they add
      up to. */
  lemma FakeClockSuffices()
    ensures Discover(Omitted, Constant(Num(42))).value == Num(42)
    ensures Discover(Omitted, Constant(Num(42))).delays <= 100
    ensures ElapsedTime(Discover(Omitted, Constant(Num(42)))) <= 100 * 1000
  {
    DefaultDiscovery();
  }

  /** A non-numeric constant is never met by the count: `discover()` runs to
      the cap, taking 101 delays (2525 time units, within a 5000-unit
      timeout), and resolves with that constant. */
  lemma SentinelRunsToCap(text: string)
    ensures Discover(Omitted, Constant(Other(text))) == Outcome(Other(text), 101, 101, 103)
    ensures ElapsedTime(Discover(Omitted, Constant(Other(text)))) == 2525 < 5000
  {
    UnreachableConstant(0, Other(text));
  }
}

=== FILE: meaning_discovery.dfy ===
/**
 The `meaningDiscovery` module: a bounded upward search that counts from a
 start value towards the value of a constant accessor (`meaningOfLife`),
 waiting a fixed delay between steps and giving up once the counter passes
 a cap of 100.

 The promise chain and the timer are modelled as counted steps: every
 non-terminal step of the search takes exactly one delay of `DelayTime`
 time units. The constant accessor is modelled as a `Source`, a function
 from the index of a read (0 for the first read of a discovery, 1 for the
 second, ...) to the value that read returns, so that a source that changes
 during a search is covered as well as a fixed one.
 */
module MeaningDiscovery {

  /** A value returned by the constant accessor: a number, or a non-numeric
      value, such as a string that converts to NaN, that loose equality never
      equates with an integer counter. */
  datatype Value = Num(n: int) | Other(text: string)

  /** The argument of `discover`: omitted, or an integer start value. */
  datatype Arg = Omitted | Given(start: int)

  /** The counter above which the search gives up. */
  const Cap: int := 100

  /** The length of the delay taken before each further step. */
  const DelayTime: nat := 25

  /** The constant accessor as it is read over time: the i-th read returns source(i). */
  type Source = nat -> Value

  /** The accessor that always returns `c`, as an unreplaced module does. */
  function Constant(c: Value): Source {
    (_: nat) => c
  }

  /** `x == meaningOfLife()` for an integer counter `x`. */
  predicate LooselyEquals(x: int, c: Value) {
    c.Num? && c.n == x
  }

  /** `x = x || 0`: an omitted (or otherwise falsy) argument starts the count at 0. */
  function Start(arg: Arg): (x: int)
    ensures x == 0 <==> arg == Omitted || arg == Given(0)
  {
    match arg
    case Omitted => 0
    case Given(x) => x
  }

  /** How a discovery resolves: the value it resolves with, the counter at
      which it stopped, the number of delays it took and the number of reads
      of the accessor it made in all. */
  datatype Outcome = Outcome(value: Value, counter: int, delays: nat, calls: nat)

  /** Step `j` of a search from `x` whose first read has index `calls` went on:
      its counter `x + j` was within the cap and did not equal the value read. */
  predicate Passes(x: int, source: Source, calls: nat, j: nat) {
    x + j <= Cap && !LooselyEquals(x + j, source(calls + j))
  }

  /** The steps of a search from `x + 1` after `calls + 1` reads are the later
      steps of a search from `x` after `calls` reads. `next` and `nextCalls`
      stand for `x + 1` and `calls + 1` so that the quantifier has a trigger
      free of arithmetic. */
  lemma PassesShifted(x: int, next: int, source: Source, calls: nat, nextCalls: nat, n: nat)
    requires next == x + 1 && nextCalls == calls + 1
    requires forall j :: 0 <= j < n ==> Passes(next, source, nextCalls, j)
    ensures forall j :: 0 < j <= n ==> Passes(x, source, calls, j)
  {
    forall j | 0 < j <= n
      ensures Passes(x, source, calls, j)
    {
      assert Passes(next, source, nextCalls, j - 1);
    }
  }

  /** The steps of a search from `x` after the first are the steps of a
      search from `next` = `x + 1` after one read more; the aliases serve the
      trigger, as in `PassesShifted`. */
  lemma PassesUnshifted(x: int, next: int, source: Source, calls: nat, nextCalls: nat, n: nat)
    requires next == x + 1 && nextCalls == calls + 1
    requires forall j :: 0 <= j <= n ==> Passes(x, source, calls, j)
    ensures forall j :: 0 <= j < n ==> Passes(next, source, nextCalls, j)
  {
    forall j | 0 <= j < n
      ensures Passes(next, source, nextCalls, j)
    {
      assert Passes(x, source, calls, j + 1);
    }
  }

  /** The search from counter `x`, where `calls` reads of the accessor have
      already been made: `discover(x)` after line 7 of meaningDiscovery.js. */
  function Search(x: int, source: Source, calls: nat): (o: Outcome)
    decreases if x <= Cap then Cap + 1 - x else 0
    ensures o.counter == x + o.delays
  {
    if LooselyEquals(x, source(calls)) then
      Outcome(Num(x), x, 0, calls + 1)
    else if x > Cap then
      Outcome(source(calls + 1), x, 0, calls + 2)
    else
      var o := Search(x + 1, source, calls + 1);
      Outcome(o.value, o.counter, o.delays + 1, o.calls)
  }

  /** The outcome of a search, characterised completely: each delay adds one
      to the counter, every step before the last one goes on, and the last one
      stops, either on a match (resolving with the counter) or past the cap
      (resolving with a second, fresh read of the accessor). */
  lemma {:induction false} SearchCharacterised(x: int, source: Source, calls: nat)
    ensures var o := Search(x, source, calls);
      && o.counter == x + o.delays
      && (o.delays == 0 <==> LooselyEquals(x, source(calls)) || x > Cap)
      && (forall j :: 0 <= j < o.delays ==> Passes(x, source, calls, j))
      && (LooselyEquals(o.counter, source(calls + o.delays)) ==>
            o.value == Num(o.counter) && o.calls == calls + o.delays + 1)
      && (!LooselyEquals(o.counter, source(calls + o.delays)) ==>
            o.counter > Cap && o.value == source(calls + o.delays + 1) && o.calls == calls + o.delays + 2)
    decreases if x <= Cap then Cap + 1 - x else 0
  {
    if !LooselyEquals(x, source(calls)) && x <= Cap {
      SearchCharacterised(x + 1, source, calls + 1);
      PassesShifted(x, x + 1, source, calls, calls + 1, Search(x + 1, source, calls + 1).delays);
    }
  }

  /** `discover(arg)` with the accessor read as `source`. */
  function Discover(arg: Arg, source: Source): (o: Outcome)
    ensures o.counter == Start(arg) + o.delays
  {
    Search(Start(arg), source, 0)
  }

  /** The time the delays of a discovery add up to. */
  function ElapsedTime(o: Outcome): nat {
    o.delays * DelayTime
  }
}
